=== FILE: README.md ===
# node-linux-gpio: pin registry and interrupt dispatch

A Dafny model of `index.js` from node-linux-gpio, a Node.js library that
drives GPIO lines through the Linux sysfs interface (`/sys/class/gpio`).
The model covers the following parts of the library:

- the in-process registry: the `byPin` table (pin number to Pin), the
  `byFD` table (descriptor to Pin) and each Pin's `fd` property;
- the operations that change the registry: `_export`, `Pin.export`,
  `watchPin`, `Pin.prototype.unexport` and `close`;
- the poller's callback, which decodes the byte it reads and dispatches an
  interrupt;
- the attribute accessors: `value`, `set`, `reset`, `toggle` and the
  get/set accessors `direction`, `edge` and `invert` built on `readOrWrite`.

Modules:

- `Js` (js.dfy): the JavaScript values the library handles. It defines
  their truthiness, `String(v)` and a decimal `parseInt`. It also holds the
  errors an operation rejects with.
- `Kernel` (kernel.dfy): the host, as a value. It holds the sysfs tree
  (control files, and the exported flag and attribute text of each line)
  and the process's descriptor table. Every `fs` call is a function from
  this value to a new value or to the error the call fails with. `open`
  hands out the lowest free descriptor, as POSIX does, so descriptor 0 can
  be handed out.
- `PinAccess` (pin_access.dfy): the attribute accessors. They use only
  the pin's number, so each is a function of the number, the arguments and
  the tree.
- `Gpio` (gpio.dfy):
  - `Pin` is a class: `pin` is constant and `fd` is updated in place.
  - `fd` is an `FdSlot`: `Unassigned` stands for `undefined`, `Cleared` for
    `null`, and `Open(n)` for descriptor `n`.
  - `Registry` is a class with the fields `byPin`, `byFD` and `polled`.
    `polled` is the set of descriptors registered with the poller.

Three invariants are defined on the registry:

- `Tracks(s)` says that every descriptor `byFD` can name is open, is polled
  and reads the value file of its pin. Every operation keeps it.
- `Agree()` is the agreement between the two tables on descriptors. Every
  `byPin` entry is filed under its own number. Every descriptor key of
  `byFD` is the descriptor of a Pin still in `byPin`. Every Pin in `byPin`
  that holds a descriptor is filed under it. The key `undefined` is not
  constrained.
  - It holds on a new registry and after `close`.
  - A first `_export` keeps it (see `FirstExport`), as does every export of
    a number whose Pin has no descriptor.
  - `unexport` of the Pin registered under its number keeps it when that
    Pin's descriptor is nonzero.
  - It breaks in two ways, both reachable from a new registry:
    - A repeat `_export` of a watched Pin re-watches it under a new
      descriptor and leaves the old one in `byFD`.
    - `unexport` of a Pin on descriptor 0: `if (self.fd)` is false, so the
      entry stays in `byFD` and in the poller while the Pin leaves `byPin`
      (see `UnexportZeroStale`).
  - `delete byPin[self.pin]` (index.js:86) removes whichever Pin holds the
    number, so `unexport` of an older Pin object for a re-exported number
    is not covered.
- `Consistent()` is `Agree()` with no Pin filed under `byFD[undefined]`. It
  holds on a new registry and after `close`. Every successful fresh
  `_export` breaks it until `close`, because it stores its Pin under
  `byFD[undefined]` (see `Register` and `UnsetKeyInconsistent`).

The model reproduces the following behaviour of the code:

- A repeat `_export` of a live number runs the direction, invert, edge and
  watch chain again. It re-watches the pin under a new descriptor and
  leaves the old descriptor in `byFD`.
- `if (fd)` treats descriptor 0 as not watched.
- A failed read in `watchPin` leaves the descriptor open.
- A function given as the `direction`, `invert` or `edge` option becomes
  the accessor's callback. The chain does not wait for that access, and its
  failure does not stop the export; for `invert` it writes `0`.
- A line with an interrupt edge cannot be made an output, and an output
  cannot be given an interrupt edge; the kernel refuses both with `EIO`
  (see `OutputEdgeRefused`).
- The `value` file shows the logical level. Writing `active_low` keeps the
  raw level and so inverts what `value` reads, and `out`, `low` and `high`
  set the raw level.

## Model

| member | source | states |
|---|---|---|
| Js.PinNumberArgument | index.js:252 | `parseInt(v)` on the values the library receives equals `parseInt(String(v))`. A number is itself, a string is parsed, and anything else is `NaN`. |
| Js.ParseIntText | index.js:252 | `parseInt(String(n)) == n` for every integer, so the number the library writes to a control file is read back as the same number. |
| Js.ParseIntChar | index.js:34 | `parseInt` of a one-character string is the digit's value, or `NaN` when the character is not a digit. |
| Js.ParseDigits | index.js:252 | The result is `NaN` exactly when the text does not start with a digit. Otherwise it is a number. |
| Js.NatText | index.js:136 | The decimal text of a number is non-empty, made of digits, and has no leading zero. |
| Kernel.ReadFile | index.js:53-63 | A read succeeds exactly when the line is exported, the file is not denied and the read does not fault. It then yields the attribute's trimmed text. A line that is not exported gives `ENOENT`. |
| Kernel.WriteFile | index.js:65-75 | Writing a number to `export` exports exactly that line. A line already exported gives `EBUSY`, and a number that is not a line gives `EINVAL`. `unexport` mirrors this. A write to an attribute file changes at most that line and never its export flag. |
| Kernel.LowestFree | index.js:203 | The descriptor `open` returns is not in use, and every lower descriptor is in use. |
| Kernel.OpenValue | index.js:203-205 | Opening a value file succeeds exactly when the line is exported and the file is not denied. On success it adds the lowest free descriptor, mapped to that line. |
| Kernel.ReadByte | index.js:31 | Reading one byte through a descriptor succeeds exactly when the descriptor is open on an exported line and the read does not fault. The byte is that line's value. |
| Kernel.CloseFd | index.js:83 | Closing removes exactly that descriptor and changes nothing else. |
| PinAccess.SetLevel | index.js:132-135 | `set` writes 0 or 1. It writes 0 exactly when a value is given and it is falsy, so `set()` writes 1. |
| PinAccess.ReadOrWrite | index.js:163-183 | As written: the accessor reads exactly when it is not boolean and has no value. A boolean accessor always writes `"1"` or `"0"`. |
| PinAccess.InvertGetterWrites | index.js:173-175 | With no value, the code writes `"0"` where the intended accessor reads. |
| PinAccess.IntendedAgrees | index.js:163-183 | The two readings agree on every call that gives a value, and on every call to an accessor that is not boolean. |
| PinAccess.Perform | index.js:176-181 | A read resolves with the file's text and leaves the tree unchanged. A write resolves with `undefined` and leaves the tree that the kernel's write gives. Either one fails exactly when the file operation fails. |
| PinAccess.Value | index.js:111-123 | `value()` succeeds exactly when the value file can be read. It resolves with the digit it holds, or with `NaN`. |
| PinAccess.Set | index.js:125-145 | `set` succeeds exactly when the line is exported, the file is writable and the direction is not `in`. It changes only that line's value, which becomes the level `SetLevel` chooses. |
| PinAccess.Reset | index.js:147-149 | `reset` succeeds under the same conditions as `set` and leaves the value `'0'`. |
| PinAccess.Toggle | index.js:151-160 | `toggle` succeeds exactly when both the read and the write do. It resolves with the value read before the write, and leaves `'0'` after a truthy value and `'1'` otherwise. |
| PinAccess.ToggleComplements | index.js:154-158 | After `toggle`, reading the value gives the complement of the value it resolved with. |
| PinAccess.SetThenValue | index.js:111-145 | Reading back after `set` gives the level written. |
| PinAccess.Direction | index.js:185-188 | `direction()` reads the direction file. `direction(v)` writes `String(v)` to it. |
| PinAccess.Edge | index.js:190-193 | `edge()` reads the edge file. `edge(v)` writes `String(v)` to it. |
| PinAccess.Invert | index.js:195-198 | Uses the corrected accessor: `invert()` reads `active_low`, and `invert(v)` writes 1 or 0 according to the truthiness of `v`. |
| PinAccess.InvertStores | index.js:195-198 | `invert(v)` succeeds exactly when the line is exported and the file is writable. It sets `active_low` to `"1"` or `"0"`, and the logical value flips when the flag changes. Nothing else changes. |
| PinAccess.DirectionRoundTrip | index.js:185-188 | Writing `in` or `out` and then reading gives back the text written. |
| PinAccess.EdgeRoundTrip | index.js:190-193 | A successful edge write must be one of the four edge names. Reading afterwards gives that name back. |
| PinAccess.InvertRoundTrip | index.js:195-198 | Writing a flag and then reading gives `"1"` for a truthy flag and `"0"` otherwise. |
| Gpio.InterruptValue | index.js:34 | The interrupt value is 0 or 1. It is 1 exactly when the byte parses to 0 or to `NaN`. |
| Gpio.InterruptDecode | index.js:34 | The interrupt value is 0 exactly for a nonzero digit byte. |
| Gpio.NonObjectOptionsIgnored | index.js:245-251 | Options that are neither an object nor `null` are accepted, and the option chain then writes nothing and succeeds: the export behaves as if no option was given. |
| Gpio.KernelExport | index.js:223-242 | Fails with `ENOENT` without the `export` control file. It writes `export` only when the line is not exported yet, and succeeds without a write otherwise. After success the line is exported and nothing else has changed. |
| Gpio.KernelUnexport | index.js:88-106 | Fails with `ENOENT` without the `unexport` control file. It writes `unexport` only when the line is still exported, and succeeds without a write otherwise. After success the line is not exported. |
| Gpio.ApplyOptions | index.js:273-285 | Writes only the options that are given, in the order direction, invert, edge. On success each given option is in the tree. A chain whose options are all absent or functions never fails, and a function-valued `invert` leaves `active_low` at `"0"` on a writable line. The exported lines never change. |
| Gpio.DirectionOption | index.js:275-277 | The direction step leaves `active_low` and the edge unchanged. A given `in` or `out` ends up in the tree (`out`, `low` and `high` also set the value, as `Kernel.Store` states). A function-valued option is a read that cannot fail the chain and changes nothing. |
| Gpio.InvertOption | index.js:279-281 | The invert step leaves the direction and the edge unchanged, and sets `active_low` to the option's truthiness. A function-valued option writes `"0"` exactly as `invert(0)` does, and the chain goes on even when that write fails. |
| Gpio.OutputEdgeRefused | index.js:275-285 | Options that ask for an output with a `rising`, `falling` or `both` edge never configure: the direction write fails, or the kernel refuses the edge on the new output. |
| Gpio.EdgeOption | index.js:283-285 | The edge step leaves the direction, `active_low` and the value unchanged, and stores a given edge name. A function-valued option is a read that cannot fail the chain and changes nothing. |
| Gpio.Pin.constructor | index.js:46-49 | A new Pin has the number and no `fd`. |
| Gpio.Pin.Export | index.js:223-242 | On success, yields a fresh Pin with that number and no `fd`. It succeeds or fails exactly as `KernelExport` does. |
| Gpio.Pin.Unexport | index.js:77-109 | The number leaves `byPin` and `fd` becomes `null`. A truthy descriptor is removed from `byFD` and from the poller and is closed. All of this happens whatever the sysfs step then does. It keeps `Tracks`, and keeps `Agree` and `Consistent` for the registered Pin when its descriptor is not 0. |
| Gpio.Registry.constructor | index.js:10-11 | Both tables start empty, and the empty registry is consistent. |
| Gpio.Registry.UnsetKeyInconsistent | index.js:268 | An entry under `byFD[undefined]` breaks the tables' consistency. |
| Gpio.Registry.UnexportZeroStale | index.js:26-87 | On a registry whose tables agree on descriptors, as `_export` leaves them, unexporting a registered Pin watched on descriptor 0 removes it from `byPin` but leaves it in `byFD` and the poller. `byFD` then sends descriptor 0 to a Pin that is not in `byPin`, and `Agree` fails. When the `unexport` write is refused, a poll event on descriptor 0 still emits an interrupt on the unexported Pin. When the write succeeds, the callback's read fails with `ENODEV` instead. |
| Gpio.Registry.Watch | index.js:200-221 | `fd`, `byFD` and the poller change only after both the open and the one-byte read succeed, and then by exactly that descriptor. A failed read leaves the descriptor open. `Tracks` is kept, and so is `Agree` when the Pin is registered and had no descriptor. |
| Gpio.Registry.Register | index.js:258-270 | A number already in `byPin` resolves to its Pin, without a kernel call. Otherwise the new Pin is entered in `byPin` and under `byFD[undefined]`, which leaves the tables inconsistent. `Agree` is kept. |
| Gpio.Registry.Export | index.js:244-292 | A number that does not parse is rejected, and nothing changes. A repeat number yields the same Pin and exports nothing. A fresh number leaves `byFD[undefined]`. On success the tree is the exported tree with the options applied plus the new descriptor, `byFD` gains exactly that descriptor (and `undefined` for a fresh number), and the poller gains it. No other Pin's `fd` changes. `Tracks` is kept. When `Pin.export` fails for a new number, the export rejects with its error and nothing changes. When it succeeds, the Pin stays in `byPin` and under `byFD[undefined]` whatever the later steps do, so `Consistent` fails. On success every option the chain waits on has been written without error. `Agree` is kept unless the number's Pin was already watched; a successful repeat export of a watched Pin breaks it. |
| Gpio.Registry.ExportOutputSet | index.js:244-292 | After a successful `_export(n, {direction: "out"})` the line is an output, so `set()` can fail only on a value file the process may not write, and `value()` then reads 1 unless the read faults. |
| Gpio.FirstExport | index.js:244-292 | After a new registry's first `_export`, whatever its outcome, the tables agree on descriptors. A successful export leaves its Pin registered, watched and filed under its descriptor, and `Consistent` fails. |
| Gpio.Registry.Configure | index.js:273-290 | The option writes, then `watchPin`. `null` options fail with a `TypeError`. A failure leaves both tables and the Pin's `fd` unchanged. Success means the options applied without error; the tree is then the tree they leave plus the lowest free descriptor open on the pin, and the tables gain exactly that descriptor. `Agree` is kept for a registered Pin that had no descriptor. |
| Gpio.Registry.Close | index.js:294-305 | Both tables and the poller end up empty. Every Pin with a truthy `fd` gets `null`, and its descriptor is closed. No other descriptor is closed, and nothing else in the tree changes. |
| Gpio.Registry.Release | index.js:298-301 | One Pin's step of `close`: a truthy `fd` is closed and cleared. A falsy one is left as it is. |
| Gpio.Registry.OnReady | index.js:26-37 | The callback fails exactly when the one-byte read fails, and with that read's error. It emits one interrupt when `byFD` maps the descriptor, carrying the decoded byte, and nothing otherwise. Neither table changes. |

## Left out

- The `epoll` binding is native code. Registering, removing and closing it are modelled as the `polled` set only, and readiness events are not generated.
- All `fs` calls are modelled over an abstract tree with deterministic failures: a missing control file, a line that is not exported, denied paths and read faults. Real I/O, `stat` races and other `errno` values are not modelled.
- `promiseOrCallback` and the callback form of each call are not modelled, except where `_export` passes a function-valued option to an accessor: that access is applied at its place in the chain, although it really runs concurrently with the later steps, and the function is not called with its outcome. Each operation is one atomic step, so the interleaving of concurrent exports and unexports is not modelled.
- The `EventEmitter` is not modelled; an interrupt is returned as a value.
- `parseInt` is modelled for decimal text only, with an optional sign and leading ASCII white space (space, tab, line feed, vertical tab, form feed, carriage return); the other white space characters JavaScript skips, such as U+00A0 and U+FEFF, are not. Hexadecimal prefixes, radix arguments and fractional or exponent notation are not modelled, and numbers are integers.
- `String(n)` is always plain decimal. JavaScript prints large numbers in exponent form.
- The kernel parses written text with the same `parseInt` model. The kernel's stricter `kstrtol` parsing is not modelled.
- Attribute text is stored already trimmed, so `.trim()` is the identity.
- In the model a re-export makes an earlier descriptor readable again; Linux keeps failing it with `ENODEV`.
- The exported string constants (index.js:310-315) and the building of sysfs paths are not modelled.
- Gpio.Registry.Export: on a failure after the Pin is found, the contract states that the Pin stays registered, and that the exported lines, the earlier entries of `byFD` and the other Pins' `fd` are kept. It does not give the tree left by the option steps that did run, because that tree depends on which step failed; `ApplyOptions` states it step by step.
- Gpio.Registry.Close: the `poller.close()` call becomes emptying `polled`. The loop visits the Pins in an unspecified order, where JavaScript visits the keys of `byPin` in ascending order; the result does not depend on the order.

## Findings

| source | as written | input that shows it | evidently intended | confidence | as-written member | corrected member |
|---|---|---|---|---|---|---|
| index.js:173-181, 195-198 | `readOrWrite` coerces the value to 1 or 0 before testing it for `undefined`, so a boolean accessor never reads | `pin.invert()` writes `0` to `active_low` instead of resolving with its text | with no value, `invert` reads `active_low` like `direction()` and `edge()` do | not executed | PinAccess.InvertGetterWrites | PinAccess.ReadOrWriteIntended |

Three more behaviours of the code look unintended. The model follows the code:

- A repeat export of a live pin fulfils with the Pin and returns (index.js:258-261), which reads as an early exit. The promise chain after it still runs the configuration and watch steps, so the Pin is watched again under a new descriptor.
- `_export` stores every new Pin under `byFD[thePin.fd]` (index.js:268) while its `fd` is still `undefined`, so the descriptor table holds a key `undefined` until `close`.
- `unexport` tests `if (self.fd)` (index.js:81). A Pin watched on descriptor 0 keeps its `byFD` entry and its poller registration. When the kernel refuses the `unexport` write, a poll event on descriptor 0 still emits an interrupt on the unexported Pin; when the write succeeds, the callback's `readSync` throws `ENODEV` (`Gpio.Registry.UnexportZeroStale`).

=== FILE: gpio.dfy ===
/** The pin registry and interrupt dispatch of index.js: the tables `byPin`
    (pin number to Pin) and `byFD` (descriptor to Pin), each Pin's `fd`
    property, and the operations that change them: `_export`, `watchPin`,
    `Pin.prototype.unexport`, `close`, and the poller's callback.

    The JavaScript objects `byPin` and `byFD` become the fields of one
    `Registry` object; the set of descriptors registered with the poller is
    a third field. Each operation is one atomic step: the asynchronous
    interleaving of concurrent calls is not modelled. */
module Gpio {
  import opened Js
  import opened Kernel
  import opened PinAccess

  datatype Option<T> = None | Some(value: T)

  /** A Pin's `fd` property: `undefined` until the pin is watched, `null`
      once unexport or close has released it, otherwise a descriptor. Used
      as a key of `byFD` it stands for `String(fd)`, which tells these
      apart. */
  datatype FdSlot = Unassigned | Cleared | Open(fd: nat)

  /** `if (pin.fd)`: only a non-zero descriptor counts as watched. */
  predicate Watched(slot: FdSlot) {
    slot.Open? && slot.fd != 0
  }

  /** An `interrupt` event: the pin it is emitted on and the value it carries. */
  datatype Interrupt = Interrupt(target: Pin, value: int)

  /** The value of the interrupt emitted for the byte read from the value
      file (index.js:34): `parseInt(byte) ? 0 : 1`. */
  function InterruptValue(c: char): (v: int)
    ensures v == 0 || v == 1
    ensures v == 1 <==> ParseInt([c]) == NaN || ParseInt([c]) == Num(0)
  {
    ParseIntChar(c);
    if Truthy(ParseInt([c])) then 0 else 1
  }

  /** An interrupt carries 1 exactly when the byte is `'0'` or not a digit,
      and 0 when it is a non-zero digit. */
  lemma InterruptDecode(c: char)
    ensures InterruptValue(c) == if IsDigit(c) && c != '0' then 0 else 1
  {
    ParseIntChar(c);
  }

  /** The options `_export` uses (index.js:245-251, 275-285): an object as
      given, `{}` for anything that is not an object, and a `TypeError`
      for `null`, whose properties cannot be read. */
  function ExportOptions(options: JsValue): (r: Result<JsValue>)
    ensures r.Err? <==> options == Null
    ensures r.Err? ==> r.error == TypeError
    ensures options.Object? ==> r == Ok(options)
    ensures !options.Object? && options != Null ==> r == Ok(Object(Undefined, Undefined, Undefined))
  {
    match options
    case Object(_, _, _) => Ok(options)
    case Null => Err(TypeError)
    case _ => Ok(Object(Undefined, Undefined, Undefined))
  }

  /** Options that are neither an object nor `null` (a number, a string,
      `undefined`, ...) are accepted and leave the line as it is: the export
      behaves as if no option had been given. */
  lemma NonObjectOptionsIgnored(n: int, v: JsValue, s: Sysfs)
    requires !v.Object? && v != Null
    ensures ExportOptions(v).Ok? && ApplyOptions(n, ExportOptions(v).value, s) == (Ok(()), s)
  {
  }

  /** The sysfs side of `Pin.export` (index.js:223-242): fails when the
      `export` control file is missing, writes the pin number to it only
      when the line is not exported yet. */
  function KernelExport(s: Sysfs, n: int): (r: Result<Sysfs>)
    ensures !s.supported ==> r == Err(IoError(ENOENT))
    ensures IsExported(s, n) ==> r == Ok(s)
    ensures s.supported && !IsExported(s, n) ==> (r.Ok? <==> n in s.lines && ExportCtl !in s.denied)
    ensures r.Ok? ==> IsExported(r.value, n) && OnlyLineChanged(s, r.value, n)
  {
    if !s.supported then Err(IoError(ENOENT))
    else if IsExported(s, n) then Ok(s)
    else
      ParseIntText(n);
      WriteFile(s, ExportCtl, IntText(n))
  }

  /** The sysfs side of `Pin.prototype.unexport` (index.js:88-106): fails
      when the `unexport` control file is missing, writes the pin number to
      it only when the line is still exported, and succeeds without a write
      otherwise. */
  function KernelUnexport(s: Sysfs, n: int): (r: Result<Sysfs>)
    ensures !s.supported ==> r == Err(IoError(ENOENT))
    ensures s.supported && !IsExported(s, n) ==> r == Ok(s)
    ensures IsExported(s, n) ==> (r.Ok? <==> UnexportCtl !in s.denied)
    ensures r.Ok? ==> !IsExported(r.value, n) && OnlyLineChanged(s, r.value, n)
  {
    if !s.supported then Err(IoError(ENOENT))
    else if !IsExported(s, n) then Ok(s)
    else
      ParseIntText(n);
      WriteFile(s, UnexportCtl, IntText(n))
  }

  /** The configuration steps of `_export` (index.js:273-285): write the
      direction, then the invert flag, then the edge, each only when that
      option is given, and stop at the first failure. The tree returned is
      the one reached, so a failure keeps the writes made before it. */
  function ApplyOptions(n: int, o: JsValue, s: Sysfs): (r: (Result<()>, Sysfs))
    requires o.Object?
    ensures SameExports(s, r.1) && OnlyLineChanged(s, r.1, n)
    ensures o.direction == Undefined && o.invert == Undefined && o.edge == Undefined ==> r == (Ok(()), s)
    ensures r.0.Ok? && (Awaited(o.direction) || Awaited(o.invert) || Awaited(o.edge)) ==>
      IsExported(s, n)
    ensures !Awaited(o.direction) && !Awaited(o.invert) && !Awaited(o.edge) ==> r.0.Ok?
    ensures r.0.Ok? && (o.direction == Str("in") || o.direction == Str("out")) ==>
      n in r.1.lines && r.1.lines[n].direction == o.direction.s
    ensures r.0.Ok? && Awaited(o.invert) ==>
      n in r.1.lines && r.1.lines[n].activeLow == if Truthy(o.invert) then "1" else "0"
    ensures r.0.Ok? && o.invert.Callback? && IsExported(s, n) && AttrFile(n, ActiveLowAttr) !in s.denied ==>
      r.1.lines[n].activeLow == "0"
    ensures r.0.Ok? && o.edge.Str? ==> n in r.1.lines && r.1.lines[n].edge == o.edge.s
  {
    var (d, s1) := DirectionOption(n, o.direction, s);
    if d.Err? then (d, s1)
    else
      var (i, s2) := InvertOption(n, o.invert, s1);
      if i.Err? then (i, s2)
      else EdgeOption(n, o.edge, s2)
  }

  /** An option the chain waits on: given, and not a function. A function
      becomes the accessor's only argument, which `readOrWrite` takes as
      its callback (index.js:165-166); `promiseOrCallback` then hands the
      outcome to it and returns `undefined` (index.js:13-24), so the chain
      goes on at once. */
  predicate Awaited(v: JsValue) {
    v != Undefined && !v.Callback?
  }

  /** A step the chain does not wait on: whatever the access does takes
      effect, and its failure does not stop the chain. */
  function Detached(r: Result<(JsValue, Sysfs)>, s: Sysfs): (Result<()>, Sysfs) {
    match r
    case Ok((_, t)) => (Ok(()), t)
    case Err(_) => (Ok(()), s)
  }

  /** One awaited step of the chain: its outcome, and the tree it leaves. */
  function Step(r: Result<(JsValue, Sysfs)>, s: Sysfs): (Result<()>, Sysfs) {
    match r
    case Ok((_, t)) => (Ok(()), t)
    case Err(e) => (Err(e), s)
  }

  /** The direction step of the chain, taken when `options.direction` is
      not `undefined`: only the direction of line `n` and, for `out`, `low`
      or `high`, its value may change. A function-valued option makes the
      step a read of the direction file that the chain does not wait on. */
  function DirectionOption(n: int, v: JsValue, s: Sysfs): (r: (Result<()>, Sysfs))
    ensures SameExports(s, r.1) && OnlyLineChanged(s, r.1, n)
    ensures !Awaited(v) ==> r == (Ok(()), s)
    ensures r.0.Ok? && Awaited(v) ==>
      IsExported(s, n) && r.1.lines[n].activeLow == s.lines[n].activeLow && r.1.lines[n].edge == s.lines[n].edge
    ensures r.0.Ok? && (v == Str("in") || v == Str("out")) ==> r.1.lines[n].direction == v.s
  {
    if v == Undefined then (Ok(()), s)
    else if v.Callback? then Detached(Direction(n, [v], s), s)
    else Step(Direction(n, [v], s), s)
  }

  /** The invert step, through `readOrWrite` as written: only line `n`'s
      `active_low` flag, and with it the logical value, may change. A
      function-valued option is taken as the callback and the value coerced
      from `undefined` is 0, so `"0"` is written as `invert(0)` would, and a
      failure of that write does not stop the chain. */
  function InvertOption(n: int, v: JsValue, s: Sysfs): (r: (Result<()>, Sysfs))
    ensures SameExports(s, r.1) && OnlyLineChanged(s, r.1, n)
    ensures v == Undefined ==> r == (Ok(()), s)
    ensures r.0.Ok? && Awaited(v) ==>
      IsExported(s, n) && r.1.lines[n].direction == s.lines[n].direction && r.1.lines[n].edge == s.lines[n].edge
    ensures r.0.Ok? && Awaited(v) ==>
      r.1.lines[n].activeLow == if Truthy(v) then "1" else "0"
    ensures v.Callback? ==>
      r.0.Ok? && r.1 == if Invert(n, [Num(0)], s).Ok? then Invert(n, [Num(0)], s).value.1 else s
    ensures v.Callback? && IsExported(s, n) && AttrFile(n, ActiveLowAttr) !in s.denied ==>
      r.1.lines[n].activeLow == "0"
  {
    if v == Undefined then (Ok(()), s)
    else if v.Callback? then
      InvertGetterWrites([v]);
      InvertStores(n, Num(0), s);
      Detached(Perform(s, n, ActiveLowAttr, ReadOrWrite([v], true)), s)
    else
      IntendedAgrees([v], true);
      InvertStores(n, v, s);
      Step(Perform(s, n, ActiveLowAttr, ReadOrWrite([v], true)), s)
  }

  /** The edge step: only the edge of line `n` may change. A
      function-valued option makes the step a read of the edge file that
      the chain does not wait on. */
  function EdgeOption(n: int, v: JsValue, s: Sysfs): (r: (Result<()>, Sysfs))
    ensures SameExports(s, r.1) && OnlyLineChanged(s, r.1, n)
    ensures !Awaited(v) ==> r == (Ok(()), s)
    ensures r.0.Ok? && Awaited(v) ==>
      IsExported(s, n) && r.1.lines[n].direction == s.lines[n].direction
      && r.1.lines[n].activeLow == s.lines[n].activeLow && r.1.lines[n].value == s.lines[n].value
    ensures r.0.Ok? && v.Str? ==> r.1.lines[n].edge == v.s
  {
    if v == Undefined then (Ok(()), s)
    else if v.Callback? then Detached(Edge(n, [v], s), s)
    else Step(Edge(n, [v], s), s)
  }

  /** Options that make the line an output and give it an interrupt edge
      never configure together: either the direction write fails, or the
      line is then an output and the kernel refuses the edge. */
  lemma OutputEdgeRefused(n: int, e: string, s: Sysfs)
    requires e in {"rising", "falling", "both"}
    ensures ApplyOptions(n, Object(Str("out"), Undefined, Str(e)), s).0.Err?
  {
    var (d, s1) := DirectionOption(n, Str("out"), s);
    if d.Ok? {
      assert s1.lines[n].direction == "out";
      assert Edge(n, [Str(e)], s1).Err?;
    }
  }

  class Pin {
    const pin: int
    var fd: FdSlot

    /** `new Pin(pin)` (index.js:46-49). */
    constructor (n: int)
      ensures pin == n && fd == Unassigned
    {
      pin := n;
      fd := Unassigned;
    }

    /** `Pin.export` (index.js:223-242): a new Pin for the number, whether or
        not the line had to be exported. */
    static method Export(n: int, s: Sysfs) returns (r: Result<Pin>, t: Sysfs)
      ensures r.Ok? <==> KernelExport(s, n).Ok?
      ensures r.Ok? ==> t == KernelExport(s, n).value
      ensures r.Ok? ==> fresh(r.value) && r.value.pin == n && r.value.fd == Unassigned
      ensures r.Err? ==> r.error == KernelExport(s, n).error && t == s
    {
      match KernelExport(s, n) {
        case Ok(exported) =>
          var p := new Pin(n);
          r, t := Ok(p), exported;
        case Err(e) =>
          r, t := Err(e), s;
      }
    }

    /** `pin.unexport()` (index.js:77-109). The registry is purged and the
        descriptor released before sysfs is touched, so they happen whatever
        the kernel step does. `if (self.fd)` skips descriptor 0, and
        `delete byPin[self.pin]` drops whatever Pin holds the number. */
    method Unexport(reg: Registry, s: Sysfs) returns (r: Result<()>, t: Sysfs)
      modifies this, reg
      ensures fd == Cleared
      ensures reg.byPin == old(reg.byPin) - {pin}
      ensures reg.byFD == if Watched(old(fd)) then old(reg.byFD) - {old(fd)} else old(reg.byFD)
      ensures reg.polled == if Watched(old(fd)) then old(reg.polled) - {old(fd).fd} else old(reg.polled)
      ensures var released := if Watched(old(fd)) then CloseFd(s, old(fd).fd) else s;
        match KernelUnexport(released, pin)
        case Ok(u) => r == Ok(()) && t == u
        case Err(e) => r == Err(e) && t == released
      ensures r.Ok? ==> !IsExported(t, pin)
      ensures old(reg.Tracks(s)) ==> reg.Tracks(t)
      ensures old(reg.Agree()) && old(pin in reg.byPin && reg.byPin[pin] == this) && old(fd) != Open(0) ==>
        reg.Agree()
      ensures old(reg.Consistent()) && old(pin in reg.byPin && reg.byPin[pin] == this) && old(fd) != Open(0) ==>
        reg.Consistent()
    {
      ghost var live := reg.Agree() && pin in reg.byPin && reg.byPin[pin] == this && fd != Open(0);
      ghost var byPin0 := reg.byPin;
      t := s;
      if Watched(fd) {
        reg.polled := reg.polled - {fd.fd};
        t := CloseFd(t, fd.fd);
        reg.byFD := reg.byFD - {fd};
      }
      reg.byPin := reg.byPin - {pin};
      fd := Cleared;
      if live {
        forall k | k in reg.byFD && k.Open?
          ensures reg.byFD[k] != this && reg.byFD[k].pin in reg.byPin && reg.byPin[reg.byFD[k].pin] == reg.byFD[k]
        {
          var q := reg.byFD[k];
          assert old(q.fd) == k && q.pin in byPin0 && byPin0[q.pin] == q;
          assert q.pin != pin;
        }
      }
      match KernelUnexport(t, pin) {
        case Ok(u) =>
          r, t := Ok(()), u;
        case Err(e) =>
          r := Err(e);
      }
    }
  }

  /** The `fd` property of each of `pins`, as a value. */
  ghost function SlotsOf(pins: set<Pin>): map<Pin, FdSlot>
    reads pins
  {
    map p | p in pins :: p.fd
  }

  /** The descriptors that `slots` records as watched for `pins`. */
  ghost function Released(slots: map<Pin, FdSlot>, pins: set<Pin>): set<nat> {
    set p | p in pins && p in slots && Watched(slots[p]) :: slots[p].fd
  }

  /** The descriptors of the watched pins among `pins`. */
  ghost function WatchedFds(pins: set<Pin>): set<nat>
    reads pins
  {
    Released(SlotsOf(pins), pins)
  }

  /** Releasing one more Pin's descriptor keeps the table equal to the
      start table less the descriptors released so far. */
  lemma ReleaseStep(s: Sysfs, slots: map<Pin, FdSlot>, done: set<Pin>, p: Pin, t: Sysfs)
    requires t == s.(fds := s.fds - Released(slots, done))
    requires p in slots
    ensures (if Watched(slots[p]) then CloseFd(t, slots[p].fd) else t)
      == s.(fds := s.fds - Released(slots, done + {p}))
  {
    var added := if Watched(slots[p]) then {slots[p].fd} else {};
    assert Released(slots, done + {p}) == Released(slots, done) + added;
    assert (s.fds - Released(slots, done)) - added == s.fds - (Released(slots, done) + added);
  }

  class Registry {
    var byPin: map<int, Pin>
    var byFD: map<FdSlot, Pin>
    var polled: set<nat>

    constructor ()
      ensures byPin == map[] && byFD == map[] && polled == {}
      ensures Consistent()
    {
      byPin := map[];
      byFD := map[];
      polled := {};
    }

    /** Every descriptor `byFD` can name is open, registered with the poller,
        and reads the value file of the pin it maps to. Every operation
        keeps this. */
    ghost predicate Tracks(s: Sysfs)
      reads this
    {
      forall k :: k in byFD && k.Open? ==>
        k.fd in polled && k.fd in s.fds && s.fds[k.fd] == byFD[k].pin
    }

    /** The tables agree on descriptors: `byPin` files each Pin under its
        own number, every descriptor key of `byFD` is the descriptor of a
        Pin in `byPin`, and every Pin in `byPin` with a descriptor (0
        included) is in `byFD` under it. A dispatch through `byFD` then
        always reaches a registered Pin. The key `undefined` is not
        constrained, so this holds on the registries `_export` builds. */
    ghost predicate Agree()
      reads this, byPin.Values, byFD.Values
    {
      && (forall n :: n in byPin ==> byPin[n].pin == n)
      && (forall k :: k in byFD && k.Open? ==>
            byFD[k].fd == k && byFD[k].pin in byPin && byPin[byFD[k].pin] == byFD[k])
      && (forall n :: n in byPin && byPin[n].fd.Open? ==>
            byPin[n].fd in byFD && byFD[byPin[n].fd] == byPin[n])
    }

    /** `Agree` with every key of `byFD` a descriptor: no Pin is filed
        under a missing `fd`. */
    ghost predicate Consistent()
      reads this, byPin.Values, byFD.Values
    {
      Agree() && forall k :: k in byFD ==> k.Open?
    }

    /** A fresh export leaves its Pin in `byFD` under the unset `fd`
        (`byFD[undefined]`), which the consistency rules out. No operation
        but `close` removes that key, so the tables disagree from the first
        fresh export until `close`. */
    lemma UnsetKeyInconsistent()
      requires Unassigned in byFD
      ensures !Consistent()
    {
    }

    /** Descriptor 0 is falsy, so `unexport` of a Pin watched under it
        skips the release (index.js:81): the Pin leaves `byPin` but stays in
        `byFD` and with the poller. When the kernel then refuses the
        `unexport` write the line stays exported, and the next readiness
        event on descriptor 0 is dispatched to the unregistered Pin. When
        the write succeeds the line is gone, and the callback's read on
        descriptor 0 fails with `ENODEV` (the `readSync` at index.js:31
        throws) before any dispatch. */
    method UnexportZeroStale(p: Pin, s: Sysfs) returns (r: Result<()>, t: Sysfs, e: Result<Option<Interrupt>>)
      requires Agree() && Tracks(s)
      requires p.pin in byPin && byPin[p.pin] == p && p.fd == Open(0)
      requires IsExported(s, p.pin) && AttrFile(p.pin, ValueAttr) !in s.readFaults
      modifies this, p
      ensures p.pin !in byPin && Open(0) in byFD && byFD[Open(0)] == p && 0 in polled
      ensures !Agree()
      ensures UnexportCtl in s.denied ==>
        r == Err(IoError(EACCES)) && t == s
        && e == Ok(Some(Interrupt(p, InterruptValue(s.lines[p.pin].value))))
      ensures UnexportCtl !in s.denied ==>
        r == Ok(()) && !IsExported(t, p.pin) && e == Err(IoError(ENODEV))
    {
      r, t := p.Unexport(this, s);
      e := OnReady(0, t);
    }

    /** `watchPin` (index.js:200-221): open the value file, read one byte,
        and only then record the descriptor on the pin and in `byFD` and
        register it with the poller. A failed read leaves the descriptor
        open. */
    method Watch(p: Pin, s: Sysfs) returns (r: Result<()>, t: Sysfs)
      modifies this, p
      ensures byPin == old(byPin)
      ensures match OpenValue(s, p.pin)
        case Err(e) =>
          r == Err(e) && t == s && byFD == old(byFD) && polled == old(polled) && p.fd == old(p.fd)
        case Ok(handle) =>
          t == handle.1 &&
          match ReadByte(handle.1, handle.0)
          case Err(e) =>
            r == Err(e) && byFD == old(byFD) && polled == old(polled) && p.fd == old(p.fd)
          case Ok(_) =>
            r == Ok(()) && p.fd == Open(handle.0) && byFD == old(byFD)[Open(handle.0) := p]
            && polled == old(polled) + {handle.0}
      ensures old(Tracks(s)) ==> Tracks(t)
      ensures old(Agree() && Tracks(s) && p.pin in byPin && byPin[p.pin] == p && !p.fd.Open?) ==> Agree()
    {
      match OpenValue(s, p.pin) {
        case Err(e) =>
          r, t := Err(e), s;
        case Ok(handle) =>
          var (fd, s1) := handle;
          t := s1;
          match ReadByte(s1, fd) {
            case Err(e) =>
              r := Err(e);
            case Ok(_) =>
              p.fd := Open(fd);
              byFD := byFD[Open(fd) := p];
              polled := polled + {fd};
              r := Ok(());
          }
      }
    }

    /** The registry step of `_export` (index.js:258-270): a number already
        in `byPin` resolves to that Pin with no kernel call; otherwise
        `Pin.export` runs and its Pin is entered in `byPin` and, under its
        still unset `fd`, in `byFD`. */
    method Register(n: int, s: Sysfs) returns (r: Result<Pin>, t: Sysfs)
      modifies this
      ensures polled == old(polled)
      ensures n in old(byPin) ==>
        r == Ok(old(byPin)[n]) && t == s && byPin == old(byPin) && byFD == old(byFD)
      ensures n !in old(byPin) && KernelExport(s, n).Err? ==>
        r == Err(KernelExport(s, n).error) && t == s && byPin == old(byPin) && byFD == old(byFD)
      ensures n !in old(byPin) && KernelExport(s, n).Ok? ==>
        r.Ok? && fresh(r.value) && r.value.pin == n && r.value.fd == Unassigned
        && t == KernelExport(s, n).value
        && byPin == old(byPin)[n := r.value] && byFD == old(byFD)[Unassigned := r.value]
      ensures n !in old(byPin) && r.Ok? ==> !Consistent()
      ensures old(Agree()) ==> Agree()
      ensures old(Tracks(s)) ==> Tracks(t)
    {
      if n in byPin {
        return Ok(byPin[n]), s;
      }
      r, t := Pin.Export(n, s);
      if r.Ok? {
        var p := r.value;
        byPin := byPin[n := p];
        byFD := byFD[p.fd := p];
        UnsetKeyInconsistent();
      }
    }

    /** `_export(pin, options)` (index.js:244-292): parse the number, find or
        export the Pin, then write the direction, invert and edge options
        that are given and watch the pin, stopping at the first failure
        without undoing the earlier steps. A repeat call for a number in
        `byPin` runs the same chain and watches the pin again. */
    method Export(arg: JsValue, options: JsValue, s: Sysfs) returns (r: Result<Pin>, t: Sysfs)
      modifies this, byPin.Values
      ensures ParseIntValue(arg) == NaN ==>
        r == Err(InvalidPinNumber) && t == s
        && byPin == old(byPin) && byFD == old(byFD) && polled == old(polled)
      ensures ParseIntValue(arg).Num? && ParseIntValue(arg).n in old(byPin) ==>
        byPin == old(byPin) && SameExports(s, t)
        && (r.Ok? ==> r.value == old(byPin)[ParseIntValue(arg).n])
      ensures ParseIntValue(arg).Num? && ParseIntValue(arg).n !in old(byPin)
              && KernelExport(s, ParseIntValue(arg).n).Err? ==>
        r == Err(KernelExport(s, ParseIntValue(arg).n).error) && t == s
        && byPin == old(byPin) && byFD == old(byFD) && polled == old(polled)
      ensures ParseIntValue(arg).Num? && ParseIntValue(arg).n !in old(byPin)
              && KernelExport(s, ParseIntValue(arg).n).Ok? ==>
        ParseIntValue(arg).n in byPin && byPin[ParseIntValue(arg).n].pin == ParseIntValue(arg).n
        && Unassigned in byFD && byFD[Unassigned] == byPin[ParseIntValue(arg).n] && !Consistent()
      ensures old(Agree() && Tracks(s))
              && !(ParseIntValue(arg).Num? && old(ParseIntValue(arg).n in byPin && byPin[ParseIntValue(arg).n].fd.Open?)) ==>
        Agree()
      ensures old(Agree() && Tracks(s)) && r.Ok?
              && old(ParseIntValue(arg).n in byPin && byPin[ParseIntValue(arg).n].fd.Open?) ==>
        !Agree()
      ensures ParseIntValue(arg).Num? && ParseIntValue(arg).n !in old(byPin) && r.Ok? ==>
        fresh(r.value) && r.value.pin == ParseIntValue(arg).n
        && byPin == old(byPin)[r.value.pin := r.value]
        && Unassigned in byFD && byFD[Unassigned] == r.value
      ensures r.Ok? ==>
        r.value.fd.Open? && r.value.fd in byFD && byFD[r.value.fd] == r.value
        && r.value.fd.fd in polled && IsExported(t, r.value.pin)
      ensures r.Ok? ==>
        polled == old(polled) + {r.value.fd.fd}
        && byFD == (if ParseIntValue(arg).n in old(byPin) then old(byFD)
                    else old(byFD)[Unassigned := r.value])[r.value.fd := r.value]
      ensures r.Ok? && ParseIntValue(arg).n in old(byPin) ==>
        options != Null && ApplyOptions(r.value.pin, ExportOptions(options).value, s).0.Ok?
        && t == ApplyOptions(r.value.pin, ExportOptions(options).value, s).1.(fds := s.fds[r.value.fd.fd := r.value.pin])
      ensures r.Ok? && ParseIntValue(arg).n !in old(byPin) ==>
        KernelExport(s, r.value.pin).Ok? && options != Null
        && var t0 := KernelExport(s, r.value.pin).value;
           ApplyOptions(r.value.pin, ExportOptions(options).value, t0).0.Ok?
           && t == ApplyOptions(r.value.pin, ExportOptions(options).value, t0).1.(fds := t0.fds[r.value.fd.fd := r.value.pin])
      ensures forall q :: q in old(byPin.Values) && (r.Err? || q != r.value) ==> q.fd == old(q.fd)
      ensures old(Tracks(s)) ==> Tracks(t)
      ensures old(Tracks(s)) ==> forall k :: k in old(byFD) && k.Open? ==> k in byFD && byFD[k] == old(byFD)[k]
      ensures old(Tracks(s)) && r.Ok? ==> r.value.fd !in old(byFD)
    {
      var parsed := ParseIntValue(arg);
      if !parsed.Num? {
        return Err(InvalidPinNumber), s;
      }
      var registered;
      registered, t := Register(parsed.n, s);
      if registered.Err? {
        return Err(registered.error), t;
      }
      var p := registered.value;
      if parsed.n in old(byPin) {
        assert p == old(byPin)[parsed.n] && p in old(byPin).Values;
      }
      var configured;
      configured, t := Configure(p, options, t);
      if configured.Err? {
        return Err(configured.error), t;
      }
      r := Ok(p);
    }

    /** `_export(n, {direction: "out"})`, then `set()` and `value()` on the
        Pin it resolves with. Once the export succeeds the line is an
        output, so `set()` fails only on a value file the process may not
        write, and `value()` then reads 1 unless the read faults. */
    method ExportOutputSet(n: int, s: Sysfs) returns (r: Result<Pin>, t: Sysfs, v: Result<JsValue>)
      requires n !in byPin || byPin[n].pin == n
      modifies this, byPin.Values
      ensures r.Ok? ==> r.value.pin == n && n in t.lines && t.lines[n].direction == "out"
      ensures r.Ok? && AttrFile(n, ValueAttr) !in s.denied ==> v.Ok? || v == Err(IoError(EIO))
      ensures r.Ok? && AttrFile(n, ValueAttr) !in s.denied && AttrFile(n, ValueAttr) !in s.readFaults ==>
        v == Ok(Num(1))
    {
      r, t := Export(Num(n), Object(Str("out"), Undefined, Undefined), s);
      if r.Err? {
        return r, t, Err(r.error);
      }
      var written := Set(n, [], t);
      if written.Err? {
        return r, t, Err(written.error);
      }
      if AttrFile(n, ValueAttr) !in t.readFaults {
        SetThenValue(n, [], t);
      }
      t := written.value;
      v := Value(n, t);
    }

    /** The rest of `_export` once the Pin is known (index.js:273-290): the
        option writes, then `watchPin`. Neither table loses an entry; on
        success the pin is watched under a descriptor new to `byFD`. */
    method Configure(p: Pin, options: JsValue, s: Sysfs) returns (r: Result<()>, t: Sysfs)
      modifies this, p
      ensures byPin == old(byPin) && SameExports(s, t)
      ensures options == Null ==> r == Err(TypeError) && t == s
      ensures r.Err? ==> byFD == old(byFD) && polled == old(polled) && p.fd == old(p.fd)
      ensures r.Ok? ==>
        p.fd.Open? && byFD == old(byFD)[p.fd := p] && polled == old(polled) + {p.fd.fd} && IsExported(t, p.pin)
      ensures r.Ok? ==>
        options != Null && ApplyOptions(p.pin, ExportOptions(options).value, s).0.Ok?
        && p.fd.fd == LowestFree(s.fds.Keys)
        && t == ApplyOptions(p.pin, ExportOptions(options).value, s).1.(fds := s.fds[p.fd.fd := p.pin])
      ensures old(Tracks(s)) ==> Tracks(t)
      ensures old(Tracks(s)) && r.Ok? ==> p.fd !in old(byFD)
      ensures old(Agree() && Tracks(s) && p.pin in byPin && byPin[p.pin] == p && !p.fd.Open?) ==> Agree()
    {
      var opts := ExportOptions(options);
      if opts.Err? {
        return Err(opts.error), s;
      }
      var (configured, t1) := ApplyOptions(p.pin, opts.value, s);
      t := t1;
      if configured.Err? {
        return Err(configured.error), t;
      }
      r, t := Watch(p, t);
    }

    /** `close()` (index.js:294-305): close the poller, release the watched
        descriptor of every Pin in `byPin`, and empty both tables. */
    method Close(s: Sysfs) returns (t: Sysfs)
      modifies this, byPin.Values
      ensures byPin == map[] && byFD == map[] && polled == {}
      ensures forall p :: p in old(byPin.Values) ==> p.fd == if Watched(old(p.fd)) then Cleared else old(p.fd)
      ensures t == s.(fds := s.fds - old(WatchedFds(byPin.Values)))
      ensures Consistent() && Tracks(t)
    {
      ghost var slots := SlotsOf(byPin.Values);
      polled := {};
      t := s;
      var todo := byPin.Values;
      ghost var done: set<Pin> := {};
      while todo != {}
        invariant todo <= old(byPin.Values) && done <= old(byPin.Values)
        invariant forall p :: p in old(byPin.Values) ==> p in todo || p in done
        invariant forall p :: p in todo ==> p !in done && p.fd == old(p.fd)
        invariant forall p :: p in done ==> p.fd == if Watched(old(p.fd)) then Cleared else old(p.fd)
        invariant forall p :: p in old(byPin.Values) ==> p in slots && slots[p] == old(p.fd)
        invariant t == s.(fds := s.fds - Released(slots, done))
        invariant byPin == old(byPin) && polled == {}
        decreases |todo|
      {
        var p :| p in todo;
        ReleaseStep(s, slots, done, p, t);
        t := Release(p, t);
        todo := todo - {p};
        done := done + {p};
      }
      assert done == old(byPin.Values);
      byPin := map[];
      byFD := map[];
    }

    /** The step of `close` for one Pin: a watched descriptor is closed and
        the Pin's `fd` cleared; an unwatched Pin is left as it is. */
    static method Release(p: Pin, t: Sysfs) returns (u: Sysfs)
      modifies p
      ensures p.fd == if Watched(old(p.fd)) then Cleared else old(p.fd)
      ensures u == if Watched(old(p.fd)) then CloseFd(t, old(p.fd).fd) else t
    {
      u := t;
      if Watched(p.fd) {
        u := CloseFd(t, p.fd.fd);
        p.fd := Cleared;
      }
    }

    /** The poller's callback for a ready descriptor (index.js:26-37): read
        the first byte of the file (which clears the interrupt), then emit
        one interrupt on the Pin `byFD` maps the descriptor to, or nothing
        when it maps none. A failed read throws out of the callback. The
        callback changes neither table. */
    method OnReady(fd: nat, s: Sysfs) returns (r: Result<Option<Interrupt>>)
      ensures r.Err? <==> ReadByte(s, fd).Err?
      ensures r.Err? ==> r.error == ReadByte(s, fd).error
      ensures r.Ok? ==> (r.value.Some? <==> Open(fd) in byFD)
      ensures r.Ok? && r.value.Some? ==>
        var c := ReadByte(s, fd).value;
        r.value.value == Interrupt(byFD[Open(fd)], if IsDigit(c) && c != '0' then 0 else 1)
      ensures Tracks(s) && Open(fd) in byFD ==>
        var n := byFD[Open(fd)].pin;
        (IsExported(s, n) && AttrFile(n, ValueAttr) !in s.readFaults ==> r.Ok? && r.value.Some?)
        && (r.Ok? ==> r.value.value.value == InterruptValue(s.lines[n].value))
    {
      if Tracks(s) && Open(fd) in byFD {
        assert fd in s.fds && s.fds[fd] == byFD[Open(fd)].pin;
      }
      var b := ReadByte(s, fd);
      if b.Err? {
        return Err(b.error);
      }
      if Open(fd) !in byFD {
        return Ok(None);
      }
      var value := InterruptValue(b.value);
      InterruptDecode(b.value);
      r := Ok(Some(Interrupt(byFD[Open(fd)], value)));
    }
  }

  /** A new registry and its first `_export`: whatever the outcome, the
      tables agree on descriptors, and a successful export also leaves its
      Pin under `byFD[undefined]`, so the stricter `Consistent` fails. */
  method FirstExport(arg: JsValue, options: JsValue, s: Sysfs) returns (reg: Registry, r: Result<Pin>, t: Sysfs)
    ensures reg.Agree() && reg.Tracks(t)
    ensures r.Ok? ==>
      r.value.pin in reg.byPin && reg.byPin[r.value.pin] == r.value && r.value.fd.Open?
      && reg.byFD[r.value.fd] == r.value && !reg.Consistent()
  {
    reg := new Registry();
    r, t := reg.Export(arg, options, s);
  }
}

=== FILE: js.dfy ===
/** JavaScript values as the GPIO library sees them: the arguments its
    public functions receive, their truthiness, their conversion to text
    (what `fs.writeFile` writes) and `parseInt` on decimal text. */
module Js {

  /** The `code` of a Node.js file-system error. */
  datatype Errno = ENOENT | EACCES | EIO | EINVAL | EBUSY | EPERM | EBADF | ENODEV

  /** What an operation rejects with. */
  datatype Error =
    | IoError(code: Errno)   // a failed fs call, forwarded unchanged
    | InvalidPinNumber       // `new Error('Invalid pin number')`
    | TypeError              // a property read on `null`

  datatype Result<T> = Ok(value: T) | Err(error: Error)

  /** The JavaScript values the library distinguishes. Numbers are integers;
      `Object` is an options object and carries its three relevant properties
      (`undefined` when absent). */
  datatype JsValue =
    | Undefined
    | Null
    | Bool(b: bool)
    | Num(n: int)
    | NaN
    | Str(s: string)
    | Callback
    | Object(direction: JsValue, invert: JsValue, edge: JsValue)

  /** JavaScript truthiness, as tested by `value ? 1 : 0` and `if (x)`. */
  predicate Truthy(v: JsValue) {
    match v
    case Undefined | Null | NaN => false
    case Bool(b) => b
    case Num(n) => n != 0
    case Str(s) => s != ""
    case Callback | Object(_, _, _) => true
  }

  predicate IsDigit(c: char) {
    '0' <= c <= '9'
  }

  /** The white space `parseInt` skips before the number. */
  predicate IsSpace(c: char) {
    c == ' ' || c == '\t' || c == '\n' || c == '\r' || c == '\U{B}' || c == '\U{C}'
  }

  predicate AllDigits(s: string) {
    forall i :: 0 <= i < |s| ==> IsDigit(s[i])
  }

  function DigitValue(c: char): (d: nat)
    requires IsDigit(c)
    ensures d < 10
  {
    c as int - '0' as int
  }

  function Digit(d: nat): (c: char)
    requires d < 10
    ensures IsDigit(c) && DigitValue(c) == d
  {
    ('0' as int + d) as char
  }

  /** The decimal text of a natural number, without leading zeros. */
  function NatText(n: nat): (s: string)
    ensures |s| > 0 && AllDigits(s)
    ensures s[0] == '0' ==> s == "0"
    decreases n
  {
    if n < 10 then [Digit(n)] else NatText(n / 10) + [Digit(n % 10)]
  }

  /** `String(n)` for an integer `n`. */
  function IntText(n: int): (s: string)
    ensures |s| > 0
    ensures n < 0 <==> s[0] == '-'
  {
    if n < 0 then "-" + NatText(-n) else NatText(n)
  }

  /** Stands for `String(v)`, which is also the text `fs.writeFile` writes
      for a non-buffer `data` argument. A function's text is its source; any
      text that neither starts with a digit nor names an attribute value
      behaves the same here, so `"function"` stands for it. */
  function ToText(v: JsValue): string {
    match v
    case Undefined => "undefined"
    case Null => "null"
    case Bool(b) => if b then "true" else "false"
    case Num(n) => IntText(n)
    case NaN => "NaN"
    case Str(s) => s
    case Callback => "function"
    case Object(_, _, _) => "[object Object]"
  }

  /** The number a string of decimal digits denotes. */
  function DigitsValue(ds: string): nat
    requires AllDigits(ds)
  {
    if ds == [] then 0 else DigitsValue(ds[..|ds| - 1]) * 10 + DigitValue(ds[|ds| - 1])
  }

  /** How many white-space characters `s` starts with. */
  function LeadingSpace(s: string): (k: nat)
    ensures k <= |s|
    ensures forall i :: 0 <= i < k ==> IsSpace(s[i])
    ensures k == |s| || !IsSpace(s[k])
  {
    if s != [] && IsSpace(s[0]) then 1 + LeadingSpace(s[1..]) else 0
  }

  /** `s` without its leading white space. */
  function SkipSpace(s: string): (t: string)
    ensures t == s[LeadingSpace(s)..]
    ensures t == [] || !IsSpace(t[0])
  {
    s[LeadingSpace(s)..]
  }

  /** The longest prefix of `s` made of decimal digits. */
  function DigitPrefix(s: string): (p: string)
    ensures |p| <= |s| && p == s[..|p|] && AllDigits(p)
    ensures |p| < |s| ==> !IsDigit(s[|p|])
  {
    if s != [] && IsDigit(s[0]) then [s[0]] + DigitPrefix(s[1..]) else []
  }

  /** The number the leading digits of `u` denote, or `NaN` if `u` does
      not start with a digit. */
  function ParseDigits(u: string): (r: JsValue)
    ensures r.Num? || r.NaN?
    ensures r.NaN? <==> u == [] || !IsDigit(u[0])
  {
    var ds := DigitPrefix(u);
    if ds == [] then NaN else Num(DigitsValue(ds))
  }

  function Negate(v: JsValue): JsValue {
    if v.Num? then Num(-v.n) else v
  }

  /** `parseInt(s)` in base 10: leading white space, an optional sign, then
      as many decimal digits as follow; `NaN` when there is no digit. */
  function ParseInt(s: string): (r: JsValue)
    ensures r.Num? || r.NaN?
  {
    var t := SkipSpace(s);
    if |t| > 0 && t[0] == '-' then Negate(ParseDigits(t[1..]))
    else if |t| > 0 && t[0] == '+' then ParseDigits(t[1..])
    else ParseDigits(t)
  }

  /** `parseInt(v)` for the values the library passes it: a number is
      itself, a string is parsed, and every other value is `NaN`. The
      lemma `PinNumberArgument` shows this is `parseInt(String(v))`. */
  function ParseIntValue(v: JsValue): (r: JsValue)
    ensures r.Num? || r.NaN?
  {
    match v
    case Num(_) => v
    case Str(s) => ParseInt(s)
    case _ => NaN
  }

  lemma {:induction false} DigitPrefixAll(ds: string)
    requires AllDigits(ds)
    ensures DigitPrefix(ds) == ds
  {
    if ds != [] {
      DigitPrefixAll(ds[1..]);
      assert [ds[0]] + ds[1..] == ds;
    }
  }

  /** A non-empty string of digits parses to the number it denotes. */
  lemma ParseDigitsAll(ds: string)
    requires ds != [] && AllDigits(ds)
    ensures ParseDigits(ds) == Num(DigitsValue(ds))
  {
    DigitPrefixAll(ds);
  }

  /** Reading back the decimal text of a number gives the number. */
  lemma {:induction false} NatTextValue(n: nat)
    ensures DigitsValue(NatText(n)) == n
  {
    var s := NatText(n);
    if n < 10 {
      assert s[..0] == [];
    } else {
      NatTextValue(n / 10);
      assert s[..|s| - 1] == NatText(n / 10);
    }
  }

  /** `parseInt(String(n)) == n`: a pin number given as a number and the
      same number given as its text name the same pin, and the text the
      library writes to a control file denotes the number it meant. */
  lemma ParseIntText(n: int)
    ensures ParseInt(IntText(n)) == Num(n)
  {
    var s := IntText(n);
    var m: nat := if n < 0 then -n else n;
    var digits := NatText(m);
    assert !IsSpace(s[0]);
    assert SkipSpace(s) == s;
    ParseDigitsAll(digits);
    NatTextValue(m);
    if n < 0 {
      assert s[1..] == digits;
    } else {
      assert s == digits && s[0] != '-' && s[0] != '+';
    }
  }

  lemma SkipNoSpace(c: char)
    requires !IsSpace(c)
    ensures SkipSpace([c]) == [c]
  {
  }

  lemma ParseOneDigit(c: char)
    requires IsDigit(c)
    ensures ParseDigits([c]) == Num(DigitValue(c))
  {
    var s := [c];
    DigitPrefixAll(s);
    assert s[..0] == [];
    assert DigitsValue(s) == DigitValue(c);
  }

  /** `parseInt` of a one-character string: the digit's value, or `NaN`. */
  lemma ParseIntChar(c: char)
    ensures ParseInt([c]) == if IsDigit(c) then Num(DigitValue(c)) else NaN
  {
    if IsSpace(c) {
      assert [c][1..] == [];
      assert SkipSpace([c]) == [];
    } else {
      SkipNoSpace(c);
      if IsDigit(c) {
        ParseOneDigit(c);
      } else {
        assert [c][1..] == [];
      }
    }
  }

  /** `parseInt` converts its argument to text first: on every value,
      `ParseIntValue` is `parseInt(String(v))`. */
  lemma PinNumberArgument(v: JsValue)
    ensures ParseIntValue(v) == ParseInt(ToText(v))
  {
    if v.Num? {
      ParseIntText(v.n);
    } else if !v.Str? {
      var t := ToText(v);
      assert t[0] != '-' && t[0] != '+' && !IsSpace(t[0]) && !IsDigit(t[0]);
      assert SkipSpace(t) == t;
    }
  }
}

=== FILE: kernel.dfy ===
/** The part of the host the GPIO library talks to: the sysfs GPIO tree
    under `/sys/class/gpio/` and the process's table of open descriptors.
    It is a value; every file-system call of the library is a function from
    it to a new value or to the error the call fails with. */
module Kernel {
  import opened Js

  /** The attribute files of an exported line, `gpio<N>/<attr>`. */
  datatype Attr = ValueAttr | DirectionAttr | EdgeAttr | ActiveLowAttr

  datatype Path = ExportCtl | UnexportCtl | AttrFile(pin: int, attr: Attr)

  /** One GPIO line the kernel knows, and whether userspace has exported it.
      `value` is the logical level, the one the value file reads and
      writes: the raw level on the wire, inverted while `activeLow` is "1". */
  datatype Line = Line(exported: bool, value: char, direction: string, edge: string, activeLow: string)

  datatype Sysfs = Sysfs(
    supported: bool,         // the GPIO class directory, with its export and unexport files
    lines: map<int, Line>,   // the lines by number
    denied: set<Path>,       // files the process may not open (EACCES)
    readFaults: set<Path>,   // files whose reads fail (EIO)
    fds: map<nat, int>)      // open descriptors: each reads the value file of a line

  /** `isExported`: whether `gpio<N>/value` exists. */
  predicate IsExported(s: Sysfs, n: int) {
    s.supported && n in s.lines && s.lines[n].exported
  }

  predicate Exists(s: Sysfs, p: Path) {
    match p
    case ExportCtl | UnexportCtl => s.supported
    case AttrFile(n, _) => IsExported(s, n)
  }

  /** Neither side exports or unexports a line. */
  predicate SameExports(s: Sysfs, t: Sysfs) {
    && s.lines.Keys == t.lines.Keys
    && forall k :: k in s.lines ==> t.lines[k].exported == s.lines[k].exported
  }

  /** Only the line table differs, and at most in line `n`. */
  predicate OnlyLineChanged(s: Sysfs, t: Sysfs, n: int) {
    && t.(lines := s.lines) == s
    && s.lines.Keys == t.lines.Keys
    && forall k :: k in s.lines && k != n ==> t.lines[k] == s.lines[k]
  }

  /** The text of an attribute file, trimmed. */
  function AttrText(l: Line, a: Attr): string {
    match a
    case ValueAttr => [l.value]
    case DirectionAttr => l.direction
    case EdgeAttr => l.edge
    case ActiveLowAttr => l.activeLow
  }

  /** `fs.readFile` of an attribute file, trimmed. */
  function ReadFile(s: Sysfs, n: int, a: Attr): (r: Result<string>)
    ensures r.Ok? <==> IsExported(s, n) && AttrFile(n, a) !in s.denied && AttrFile(n, a) !in s.readFaults
    ensures r.Ok? ==> r.value == AttrText(s.lines[n], a)
    ensures !IsExported(s, n) ==> r == Err(IoError(ENOENT))
  {
    var p := AttrFile(n, a);
    if !IsExported(s, n) then Err(IoError(ENOENT))
    else if p in s.denied then Err(IoError(EACCES))
    else if p in s.readFaults then Err(IoError(EIO))
    else Ok(AttrText(s.lines[n], a))
  }

  /** The other level; any other character is left as it is. */
  function Flip(c: char): char {
    if c == '0' then '1' else if c == '1' then '0' else c
  }

  /** The logical level of a line whose raw level is `raw`. */
  function Logical(activeLow: string, raw: char): char {
    if activeLow == "1" then Flip(raw) else raw
  }

  /** What the kernel does with text written to an attribute file. Writing
      `out` to `direction` drives the raw level low, as `low` does; `high`
      drives it high. Changing `active_low` keeps the raw level, so the
      logical level the value file shows is inverted. A line whose edge is
      not `none` serves as an interrupt, so it cannot be made an output,
      and an output line cannot be given an interrupt edge: both fail with
      `EIO`. */
  function Store(l: Line, a: Attr, text: string): (r: Result<Line>)
    ensures r.Ok? ==> r.value.exported == l.exported
    ensures a == ValueAttr ==> (r.Ok? <==> l.direction != "in" && ParseInt(text).Num?)
    ensures a == ValueAttr && r.Ok? ==> r.value == l.(value := if ParseInt(text).n != 0 then '1' else '0')
    ensures a == DirectionAttr && text == "in" ==> r == Ok(l.(direction := "in"))
    ensures a == DirectionAttr && (text == "out" || text == "low" || text == "high") ==>
      (r.Ok? <==> l.edge == "none") && (r.Err? ==> r.error == IoError(EIO))
    ensures a == DirectionAttr && (text == "out" || text == "low") && r.Ok? ==>
      r.value == l.(direction := "out", value := Logical(l.activeLow, '0'))
    ensures a == DirectionAttr && text == "high" && r.Ok? ==>
      r.value == l.(direction := "out", value := Logical(l.activeLow, '1'))
    ensures a == EdgeAttr ==>
      (r.Ok? <==> text == "none" || (text in {"rising", "falling", "both"} && l.direction != "out"))
    ensures a == EdgeAttr && r.Ok? ==> r.value == l.(edge := text)
    ensures a == ActiveLowAttr ==> (r.Ok? <==> ParseInt(text).Num?)
    ensures a == ActiveLowAttr && r.Ok? ==>
      r.value.activeLow == (if ParseInt(text).n != 0 then "1" else "0")
      && r.value.(activeLow := l.activeLow, value := l.value) == l
    ensures a == ActiveLowAttr && r.Ok? && l.value in {'0', '1'} ==>
      (r.value.value == l.value <==> r.value.activeLow == l.activeLow)
  {
    match a
    case ValueAttr =>
      if l.direction == "in" then Err(IoError(EPERM))
      else (match ParseInt(text)
            case Num(v) => Ok(l.(value := if v != 0 then '1' else '0'))
            case _ => Err(IoError(EINVAL)))
    case DirectionAttr =>
      if text == "in" then Ok(l.(direction := "in"))
      else if text != "out" && text != "low" && text != "high" then Err(IoError(EINVAL))
      else if l.edge != "none" then Err(IoError(EIO))
      else Ok(l.(direction := "out", value := Logical(l.activeLow, if text == "high" then '1' else '0')))
    case EdgeAttr =>
      if text == "none" then Ok(l.(edge := text))
      else if text !in {"rising", "falling", "both"} then Err(IoError(EINVAL))
      else if l.direction == "out" then Err(IoError(EIO))
      else Ok(l.(edge := text))
    case ActiveLowAttr =>
      match ParseInt(text)
      case Num(v) =>
        var flag := if v != 0 then "1" else "0";
        Ok(l.(activeLow := flag, value := if flag == l.activeLow then l.value else Flip(l.value)))
      case _ => Err(IoError(EINVAL))
  }

  /** Marks line `k` exported or not; the control files' effect. */
  function SetExported(s: Sysfs, k: int, on: bool): (t: Sysfs)
    requires k in s.lines
    ensures OnlyLineChanged(s, t, k) && t.lines[k] == s.lines[k].(exported := on)
  {
    s.(lines := s.lines[k := s.lines[k].(exported := on)])
  }

  /** `fs.writeFile(path, text)`. Writing a number to `export` makes that
      line's attribute files appear, writing it to `unexport` removes them. */
  function WriteFile(s: Sysfs, p: Path, text: string): (r: Result<Sysfs>)
    ensures !Exists(s, p) ==> r == Err(IoError(ENOENT))
    ensures Exists(s, p) && p in s.denied ==> r == Err(IoError(EACCES))
    ensures r.Ok? ==> r.value.(lines := s.lines) == s && r.value.lines.Keys == s.lines.Keys
    ensures p.AttrFile? && r.Ok? ==> SameExports(s, r.value) && OnlyLineChanged(s, r.value, p.pin)
    ensures p.AttrFile? && Exists(s, p) && p !in s.denied ==>
      match Store(s.lines[p.pin], p.attr, text)
      case Ok(l) => r == Ok(s.(lines := s.lines[p.pin := l]))
      case Err(e) => r == Err(e)
    ensures p == ExportCtl && s.supported && ExportCtl !in s.denied ==>
      match ParseInt(text)
      case Num(k) => r == (if k in s.lines && !s.lines[k].exported then Ok(SetExported(s, k, true))
                           else if k in s.lines then Err(IoError(EBUSY)) else Err(IoError(EINVAL)))
      case _ => r == Err(IoError(EINVAL))
    ensures p == UnexportCtl && s.supported && UnexportCtl !in s.denied ==>
      match ParseInt(text)
      case Num(k) => r == (if k in s.lines && s.lines[k].exported then Ok(SetExported(s, k, false))
                           else Err(IoError(EINVAL)))
      case _ => r == Err(IoError(EINVAL))
  {
    if !Exists(s, p) then Err(IoError(ENOENT))
    else if p in s.denied then Err(IoError(EACCES))
    else match p
      case ExportCtl =>
        (match ParseInt(text)
         case Num(k) =>
           if k !in s.lines then Err(IoError(EINVAL))
           else if s.lines[k].exported then Err(IoError(EBUSY))
           else Ok(SetExported(s, k, true))
         case _ => Err(IoError(EINVAL)))
      case UnexportCtl =>
        (match ParseInt(text)
         case Num(k) =>
           if k in s.lines && s.lines[k].exported then Ok(SetExported(s, k, false))
           else Err(IoError(EINVAL))
         case _ => Err(IoError(EINVAL)))
      case AttrFile(n, a) =>
        match Store(s.lines[n], a, text)
        case Ok(l) => Ok(s.(lines := s.lines[n := l]))
        case Err(e) => Err(e)
  }

  /** If the descriptors `0 .. k - 1` are all in use, there are at least `k`. */
  lemma {:induction false} InUseBound(fds: set<nat>, k: nat)
    requires forall j :: 0 <= j < k ==> j in fds
    ensures k <= |fds|
  {
    if k > 0 {
      InUseBound(fds - {k - 1}, k - 1);
    }
  }

  function LowestFreeFrom(fds: set<nat>, k: nat): (r: nat)
    requires forall j :: 0 <= j < k ==> j in fds
    ensures k <= r && r !in fds
    ensures forall j :: 0 <= j < r ==> j in fds
    decreases |fds| - k
  {
    if k in fds then
      InUseBound(fds, k + 1);
      LowestFreeFrom(fds, k + 1)
    else k
  }

  /** The descriptor `open` hands out: the lowest one not in use. */
  function LowestFree(fds: set<nat>): (r: nat)
    ensures r !in fds
    ensures forall j :: 0 <= j < r ==> j in fds
  {
    LowestFreeFrom(fds, 0)
  }

  /** `fs.open(gpio<N>/value, 'r')`: the new descriptor and the new table. */
  function OpenValue(s: Sysfs, n: int): (r: Result<(nat, Sysfs)>)
    ensures !IsExported(s, n) ==> r == Err(IoError(ENOENT))
    ensures r.Ok? <==> IsExported(s, n) && AttrFile(n, ValueAttr) !in s.denied
    ensures r.Ok? ==> var (fd, t) := r.value;
      fd == LowestFree(s.fds.Keys) && t == s.(fds := s.fds[fd := n])
  {
    if !IsExported(s, n) then Err(IoError(ENOENT))
    else if AttrFile(n, ValueAttr) in s.denied then Err(IoError(EACCES))
    else
      var fd := LowestFree(s.fds.Keys);
      Ok((fd, s.(fds := s.fds[fd := n])))
  }

  /** `fs.read(fd, buffer, 0, 1, 0)`: the first byte of the value file. */
  function ReadByte(s: Sysfs, fd: nat): (r: Result<char>)
    ensures r.Ok? <==> fd in s.fds && IsExported(s, s.fds[fd]) && AttrFile(s.fds[fd], ValueAttr) !in s.readFaults
    ensures r.Ok? ==> r.value == s.lines[s.fds[fd]].value
  {
    if fd !in s.fds then Err(IoError(EBADF))
    else
      var n := s.fds[fd];
      if !IsExported(s, n) then Err(IoError(ENODEV))
      else if AttrFile(n, ValueAttr) in s.readFaults then Err(IoError(EIO))
      else Ok(s.lines[n].value)
  }

  /** `fs.close(fd)`; closing a descriptor that is not open changes nothing. */
  function CloseFd(s: Sysfs, fd: nat): (t: Sysfs)
    ensures fd !in t.fds && t.fds.Keys == s.fds.Keys - {fd}
    ensures t.(fds := s.fds) == s
  {
    s.(fds := s.fds - {fd})
  }
}

=== FILE: pin_access.dfy ===
/** The attribute accessors of a pin (index.js:111-198): `value`, `set`,
    `reset`, `toggle` and the get/set accessors `direction`, `edge` and
    `invert`. They only use the pin's number, so each is a function of that
    number, its arguments and the sysfs tree; a successful call yields what
    the promise resolves with and the new tree. */
module PinAccess {
  import opened Js
  import opened Kernel

  /** The value argument of `set` and of `readOrWrite`: the first argument,
      unless it is the only one and a function, which is then the callback
      (index.js:126-129, 165-172). */
  function ValueArgument(args: seq<JsValue>): (v: JsValue)
    ensures |args| == 0 ==> v == Undefined
    ensures |args| == 1 && args[0].Callback? ==> v == Undefined
    ensures |args| > 0 && !(|args| == 1 && args[0].Callback?) ==> v == args[0]
  {
    if |args| == 1 && args[0].Callback? then Undefined
    else if |args| >= 1 then args[0]
    else Undefined
  }

  /** The level `set` writes (index.js:132-135): high when no value is given
      (also for an explicit `undefined`), otherwise the value's truthiness. */
  function SetLevel(args: seq<JsValue>): (level: nat)
    ensures level == 0 || level == 1
    ensures level == 0 <==> ValueArgument(args) != Undefined && !Truthy(ValueArgument(args))
  {
    var v := if ValueArgument(args) == Undefined then Num(1) else ValueArgument(args);
    if Truthy(v) then 1 else 0
  }

  /** Whether an accessor call reads its file or writes text to it. */
  datatype Access = Read | Write(text: string)

  /** `readOrWrite` as written (index.js:163-183): with `boolValue` the value
      is coerced to 1 or 0 before the test for `undefined`, so such an
      accessor never reads. */
  function ReadOrWrite(args: seq<JsValue>, boolValue: bool): (a: Access)
    ensures a.Read? <==> !boolValue && ValueArgument(args) == Undefined
    ensures boolValue ==> a == Write(if Truthy(ValueArgument(args)) then "1" else "0")
    ensures !boolValue && a.Write? ==> a.text == ToText(ValueArgument(args))
  {
    var v := ValueArgument(args);
    var coerced := if boolValue then Num(if Truthy(v) then 1 else 0) else v;
    if coerced == Undefined then Read else Write(ToText(coerced))
  }

  /** `readOrWrite` as its get/set contract intends: read when no value is
      given, and coerce to 1 or 0 only a value that is given. */
  function ReadOrWriteIntended(args: seq<JsValue>, boolValue: bool): (a: Access)
    ensures a.Read? <==> ValueArgument(args) == Undefined
    ensures a.Write? && boolValue ==> a.text == if Truthy(ValueArgument(args)) then "1" else "0"
    ensures a.Write? && !boolValue ==> a.text == ToText(ValueArgument(args))
  {
    var v := ValueArgument(args);
    if v == Undefined then Read
    else if boolValue then Write(if Truthy(v) then "1" else "0")
    else Write(ToText(v))
  }

  /** `invert()` with no argument, as written, writes 0 to `active_low`
      instead of reading it. */
  lemma InvertGetterWrites(args: seq<JsValue>)
    requires ValueArgument(args) == Undefined
    ensures ReadOrWrite(args, true) == Write("0")
    ensures ReadOrWriteIntended(args, true) == Read
  {
  }

  /** The two readings differ only there: they agree on every call that
      gives a value, and on every accessor that is not boolean. */
  lemma IntendedAgrees(args: seq<JsValue>, boolValue: bool)
    requires ValueArgument(args) != Undefined || !boolValue
    ensures ReadOrWriteIntended(args, boolValue) == ReadOrWrite(args, boolValue)
  {
  }

  /** The read or write `readOrWrite` performs on `gpio<n>/<attr>`; a read
      resolves with the file's text, a write with `undefined`. */
  function Perform(s: Sysfs, n: int, attr: Attr, access: Access): (r: Result<(JsValue, Sysfs)>)
    ensures access.Read? ==> (r.Ok? <==> ReadFile(s, n, attr).Ok?)
    ensures access.Read? && r.Ok? ==> r.value == (Str(AttrText(s.lines[n], attr)), s)
    ensures access.Write? ==> (r.Ok? <==> WriteFile(s, AttrFile(n, attr), access.text).Ok?)
    ensures access.Write? && r.Ok? ==> r.value.0 == Undefined
    ensures access.Write? && r.Ok? ==> SameExports(s, r.value.1) && OnlyLineChanged(s, r.value.1, n)
    ensures access.Write? && r.Ok? ==> r.value.1 == WriteFile(s, AttrFile(n, attr), access.text).value
    ensures r.Ok? ==> IsExported(s, n)
  {
    match access
    case Read =>
      (match ReadFile(s, n, attr)
       case Ok(text) => Ok((Str(text), s))
       case Err(e) => Err(e))
    case Write(text) =>
      match WriteFile(s, AttrFile(n, attr), text)
      case Ok(t) => Ok((Undefined, t))
      case Err(e) => Err(e)
  }

  /** `pin.value()` (index.js:111-123): `parseInt` of the value file. */
  function Value(n: int, s: Sysfs): (r: Result<JsValue>)
    ensures r.Ok? <==> ReadFile(s, n, ValueAttr).Ok?
    ensures r.Ok? ==> r.value == (if IsDigit(s.lines[n].value) then Num(DigitValue(s.lines[n].value)) else NaN)
  {
    match ReadFile(s, n, ValueAttr)
    case Ok(text) =>
      ParseIntChar(s.lines[n].value);
      Ok(ParseInt(text))
    case Err(e) => Err(e)
  }

  /** `pin.set(value)` (index.js:125-145): writes the level to the value file. */
  function Set(n: int, args: seq<JsValue>, s: Sysfs): (r: Result<Sysfs>)
    ensures r.Ok? <==> IsExported(s, n) && AttrFile(n, ValueAttr) !in s.denied && s.lines[n].direction != "in"
    ensures r.Ok? ==> OnlyLineChanged(s, r.value, n)
    ensures r.Ok? ==> r.value.lines[n] == s.lines[n].(value := Digit(SetLevel(args)))
  {
    var level := SetLevel(args);
    ParseIntText(level);
    WriteFile(s, AttrFile(n, ValueAttr), ToText(Num(level)))
  }

  /** `pin.reset()` (index.js:147-149): sets the logical level to 0. */
  function Reset(n: int, s: Sysfs): (r: Result<Sysfs>)
    ensures r.Ok? <==> IsExported(s, n) && AttrFile(n, ValueAttr) !in s.denied && s.lines[n].direction != "in"
    ensures r.Ok? ==> OnlyLineChanged(s, r.value, n) && r.value.lines[n].value == '0'
  {
    Set(n, [Num(0)], s)
  }

  /** `pin.toggle()` (index.js:151-160): reads the value, writes its
      complement, and resolves with the value read before the write. */
  function Toggle(n: int, s: Sysfs): (r: Result<(JsValue, Sysfs)>)
    ensures r.Ok? <==> Value(n, s).Ok? && Set(n, [Num(0)], s).Ok?
    ensures r.Ok? ==> r.value.0 == Value(n, s).value
    ensures r.Ok? ==> OnlyLineChanged(s, r.value.1, n)
    ensures r.Ok? ==> r.value.1.lines[n].value == if Truthy(r.value.0) then '0' else '1'
  {
    match Value(n, s)
    case Err(e) => Err(e)
    case Ok(before) =>
      match Set(n, [Num(if Truthy(before) then 0 else 1)], s)
      case Err(e) => Err(e)
      case Ok(t) => Ok((before, t))
  }

  /** `pin.direction([value])` (index.js:185-188). */
  function Direction(n: int, args: seq<JsValue>, s: Sysfs): (r: Result<(JsValue, Sysfs)>)
    ensures ValueArgument(args) == Undefined ==> r == Perform(s, n, DirectionAttr, Read)
    ensures ValueArgument(args) != Undefined ==> r == Perform(s, n, DirectionAttr, Write(ToText(ValueArgument(args))))
  {
    Perform(s, n, DirectionAttr, ReadOrWrite(args, false))
  }

  /** `pin.edge([value])` (index.js:190-193). */
  function Edge(n: int, args: seq<JsValue>, s: Sysfs): (r: Result<(JsValue, Sysfs)>)
    ensures ValueArgument(args) == Undefined ==> r == Perform(s, n, EdgeAttr, Read)
    ensures ValueArgument(args) != Undefined ==> r == Perform(s, n, EdgeAttr, Write(ToText(ValueArgument(args))))
  {
    Perform(s, n, EdgeAttr, ReadOrWrite(args, false))
  }

  /** `pin.invert([value])` (index.js:195-198), on the corrected accessor:
      with no value it reads `active_low`, with a value it writes 1 or 0. */
  function Invert(n: int, args: seq<JsValue>, s: Sysfs): (r: Result<(JsValue, Sysfs)>)
    ensures ValueArgument(args) == Undefined ==> r == Perform(s, n, ActiveLowAttr, Read)
    ensures ValueArgument(args) != Undefined ==>
      r == Perform(s, n, ActiveLowAttr, Write(if Truthy(ValueArgument(args)) then "1" else "0"))
  {
    Perform(s, n, ActiveLowAttr, ReadOrWriteIntended(args, true))
  }

  /** What `invert(v)` does with a value: sets the line's `active_low` flag
      to 1 for a truthy value and to 0 otherwise. The raw level stays, so
      the logical value flips when the flag changes; nothing else changes. */
  lemma InvertStores(n: int, v: JsValue, s: Sysfs)
    requires v != Undefined && !v.Callback?
    ensures Invert(n, [v], s).Ok? <==> IsExported(s, n) && AttrFile(n, ActiveLowAttr) !in s.denied
    ensures Invert(n, [v], s).Ok? ==>
      Invert(n, [v], s).value ==
      var flag := if Truthy(v) then "1" else "0";
      var l := s.lines[n];
      (Undefined, s.(lines := s.lines[n := l.(activeLow := flag, value := if flag == l.activeLow then l.value else Flip(l.value))]))
  {
    var text := if Truthy(v) then "1" else "0";
    assert ReadOrWriteIntended([v], true) == Write(text);
    ParseIntText(if Truthy(v) then 1 else 0);
    assert ParseInt(text) == Num(if Truthy(v) then 1 else 0);
    if IsExported(s, n) && AttrFile(n, ActiveLowAttr) !in s.denied {
      var l := s.lines[n];
      assert Store(l, ActiveLowAttr, text) ==
        Ok(l.(activeLow := text, value := if text == l.activeLow then l.value else Flip(l.value)));
    }
  }

  /** Writing a level with `set` and reading it back with `value` gives
      that level. */
  lemma SetThenValue(n: int, args: seq<JsValue>, s: Sysfs)
    requires Set(n, args, s).Ok?
    requires AttrFile(n, ValueAttr) !in s.readFaults
    ensures Value(n, Set(n, args, s).value) == Ok(Num(SetLevel(args)))
  {
  }

  /** `toggle` resolves with the old value and leaves its complement:
      from 0 it resolves 0 and leaves 1, from 1 it resolves 1 and leaves 0. */
  lemma ToggleComplements(n: int, s: Sysfs)
    requires Toggle(n, s).Ok?
    requires AttrFile(n, ValueAttr) !in s.readFaults
    ensures var (before, t) := Toggle(n, s).value;
      before == Value(n, s).value &&
      Value(n, t) == Ok(Num(if Truthy(before) then 0 else 1))
  {
  }

  /** Writing `in` or `out` to the direction and then reading it gives the
      text written. */
  lemma DirectionRoundTrip(n: int, d: string, s: Sysfs)
    requires d == "in" || d == "out"
    requires Direction(n, [Str(d)], s).Ok?
    requires AttrFile(n, DirectionAttr) !in s.readFaults
    ensures var t := Direction(n, [Str(d)], s).value.1;
      Direction(n, [], t) == Ok((Str(d), t))
  {
  }

  /** Writing an edge name and then reading the edge gives the name. */
  lemma EdgeRoundTrip(n: int, e: string, s: Sysfs)
    requires Edge(n, [Str(e)], s).Ok?
    requires AttrFile(n, EdgeAttr) !in s.readFaults
    ensures e in {"none", "rising", "falling", "both"}
    ensures var t := Edge(n, [Str(e)], s).value.1;
      Edge(n, [], t) == Ok((Str(e), t))
  {
  }

  /** Writing an invert flag and then reading it gives 1 for a truthy flag
      and 0 otherwise. */
  lemma InvertRoundTrip(n: int, v: JsValue, s: Sysfs)
    requires v != Undefined && !v.Callback?
    requires Invert(n, [v], s).Ok?
    requires AttrFile(n, ActiveLowAttr) !in s.readFaults
    ensures var t := Invert(n, [v], s).value.1;
      Invert(n, [], t) == Ok((Str(if Truthy(v) then "1" else "0"), t))
  {
    var flag := if Truthy(v) then 1 else 0;
    ParseIntText(flag);
    assert IntText(flag) == if Truthy(v) then "1" else "0";
  }
}
